=== FILE: README.md ===
# Pomodachi: a verified model of the pet's hunger economy and Pomodoro session machine

Pomodachi is a virtual pet on a small two-button device that doubles as a Pomodoro timer.
The pet gets hungry as real time passes: one hunger step fires per period, and the period
depends on the weekday. Pressing a single button feeds the pet from a food store. Pressing
both buttons together and holding them for six seconds starts a work session. A session is
`legsInSession` work legs with a break between each pair of legs. Each completed leg pays food,
and the last leg also pays a session bonus. A pet that reaches the hunger threshold with no
food runs away, and the device then stops running sessions for good. A speech bubble shows short
messages that are meant to clear themselves: a message set while the clearing timer is off stays
for three seconds from the next tick. As written, the clearing timer is never switched off, so a
later message can be wiped on the very next tick (see Findings).

This project models that core in Dafny:

- `state.dfy` (`PetState`): the configuration and the mutable record. The record holds the
  `pomo_state` entries that change and the main loop's globals. The file also holds the
  buttons and clock sample of one tick, and the invariant `Inv` that the loop keeps.
- `hunger.dfy` (`Hunger`): Python's floor division, the hunger period, feeding, the hunger step
  and the loop's hunger trigger.
- `speech.dfy` (`Speech`): speech clearing. It has both the corrected version and the version as
  written (see Findings).
- `session.dfy` (`Session`): the idle, work-leg and break steps. It also holds the lemmas on
  hold-to-start, leg and break counting, and the food paid per session.
- `loop.dfy` (`Loop`): one main-loop tick (hunger, then speech, then session, in the loop's
  order), runs of ticks, and the lemmas that the invariant holds and running away is permanent.
- `device.dfy` (`Device`): class `Pomodachi`. Its fields are the record, updated in place by
  `Feed`, `Hungry` and `Tick`. Each method is proved equal to the pure step of the same name.
- `text.dfy` (`PetText`): the food readout, the clock readout, and decimal printing with a
  parse-back round trip.
- `colors.dfy` (`Colors`): the colour wheel.

The buttons are wired with pull-ups (code.py:157-164). A debouncer's "fell" edge is therefore
the moment a button is **pressed**, and a button whose value reads low is **held**. The model's
`Buttons` carries `leftFell`, `rightFell`, `leftHeld` and `rightHeld` with these meanings.
Elapsed times are plain differences of clock readings and are never clamped at zero
(code.py:262, 277, 308, 328, 362), so a clock that steps backwards gives a negative elapsed
time.

Time is an integer count of seconds. The clock and the weekday are read once per tick and are
parameters of the tick (a `Sample`). A timer that is off holds the sentinel `Unset` (-1), as in
the source.

## Model

| member | source | states |
|---|---|---|
| `PetState.DefaultConfig` | code.py:167-187 | The shipped settings form a valid configuration. Their session rewards and hunger threshold are both 6. |
| `PetState.InitialInv` | code.py:26-34 | The power-on record (idle, no hold timer, speech timer off, 10 food) satisfies the loop invariant. |
| `Hunger.FloorDiv` | code.py:143 | Python's `//`: the quotient is the floor of a/b, for a positive divisor and for a negative one. |
| `Hunger.SecondsForHunger` | code.py:138-144 | The period is defined for every rate because a zero steps-per-day count becomes 1. A zero rate gives one step per day (86400 s). Otherwise the period is the floor of 86400 divided by the steps per day d, for positive and for negative d. |
| `Hunger.HungerPeriodBounds` | code.py:138-144 | The period is at least 1 s when 0 < d <= 86400, and 0 (a hunger step every tick) when d > 86400. It is negative when d < 0. |
| `Hunger.Feed` | code.py:84-91 | A food is spent exactly when there is one. The hunger gained equals the food spent times the catch-up multiplier (hunger <= 0) or 1. Speech is "*NOM*". Nothing else changes. |
| `Hunger.Hungry` | code.py:93-102 | Food plus hunger drops by exactly 1. A food is eaten exactly when hunger-1 is at or below the threshold and food > 0. The run-away latch is set exactly when it was set already or hunger-1 is at or below the threshold with no food. Speech is "*GURGLE*". Nothing else changes. |
| `Hunger.HungerStep` | code.py:262-265 | The step fires exactly when now - lastHunger is at least the day's period. Firing is exactly `Hungry` followed by restarting the hunger and speech timers at now, so it costs exactly one unit of food plus hunger. Otherwise the record is unchanged. |
| `Hunger.FeedKeepsInv` | code.py:84-91 | Feeding keeps the invariant, in particular food >= 0. |
| `Hunger.HungerStepKeepsInv` | code.py:262-265 | A hunger step keeps the invariant: food >= 0, and a pet that ran away has no food and hunger at or below the threshold. |
| `Hunger.FeedWithoutFood` | code.py:84-91 | With no food, feeding changes only the speech, so feeding twice is the same as feeding once. |
| `Hunger.StarvationScenario` | code.py:93-102 | With the shipped settings, a hunger step from 1 with food eats one food and leaves hunger 1. With an empty store, the same step makes the pet run away. |
| `Speech.ClearSpeech` | code.py:273-279 | The corrected clearing. The timer is armed lazily. Once it is 3 s old the message is wiped and the timer is switched off. Otherwise the message stays. Only the speech and the timer change. |
| `Speech.FreshMessageLastsThreeSeconds` | code.py:273-279 | Corrected clearing: a message set while the timer is off is armed at the next tick t. It stays at every tick less than 3 s later. It is wiped, and the timer is switched off, at 3 s or more. |
| `Speech.PendingTimerIsInherited` | code.py:273-279 | Under the corrected clearing, "*NOM*" said at 1 while the "Hi!" timer from 0 is pending is wiped at 3, two seconds after it appeared. |
| `Speech.ClearSpeechAsWritten` | code.py:273-279 | Clearing as written: the timer is armed lazily. The message is wiped exactly when the armed timer is at least 3 s old, but the timer is left at its armed value even after it fires. Only the speech and the timer change. |
| `Speech.AsWrittenNeverDisarms` | code.py:276-279 | As written, an armed speech timer is never switched off again. |
| `Speech.AsWrittenWipesFreshMessage` | code.py:273-279 | As written, "*NOM*" from a feeding at t=10 is wiped on the very next tick, at t=10. With the corrected clearing it stays. |
| `Session.IdleStep` | code.py:300-325 | The idle branch is the hold half `Session.IdleHold` (code.py:307-325) after the press half `Session.IdlePress` (code.py:301-304); this contract covers both. Unless a session starts, the new hold timer is now after a same-tick double press and the old timer otherwise while both buttons are held, and off when either is let go. The idle branch changes food and hunger only as one feeding does, and never touches the run-away latch or the hunger clock. When it starts a session, it sets leg 1, a work leg from now, the hold timer off and "POMO!". Otherwise the leg, break and phase timer are unchanged. With both buttons held and the hold timer armed (this tick or earlier), the speech timer restarts at now, and before 6 s the pet says "Start in " followed by 5 minus the seconds held. Otherwise the speech timer is unchanged and the pet says "*NOM*" after a press of exactly one button, and nothing new otherwise. |
| `Session.WorkStep` | code.py:327-360 | Before the leg's length has passed, nothing changes. A leg ends exactly when its length has passed and both buttons are held. It then restarts the phase timer and pays foodForLeg, plus foodForSession when it was the last leg. A break follows before the last leg, and the session ends with "Good Job!" after it. Otherwise food, phase and timer are unchanged. The leg counter and everything outside speech, food and phase never change. Once the leg's length has passed, the pet says "Break Time!", or "Good Job!" with the speech timer restarted at now when the last leg is paid. Otherwise the speech timer is unchanged. |
| `Session.BreakStep` | code.py:361-399 | Before the break's length has passed, nothing changes. Only the speech, the phase timer, the break flag and the leg counter can change. The leg counter rises by at most 1, and only when the next work leg starts now with both buttons held. Otherwise the phase and its timer are unchanged. |
| `Session.SessionStep` | code.py:281-399 | The session part of a tick keeps the invariant. It never changes the run-away latch or the hunger clock. A pet that ran away is left untouched. |
| `Session.IdlePressRules` | code.py:300-325 | When idle: a same-tick press of both buttons arms the hold timer at now and does not feed. A press of exactly one button feeds. No press leaves food and hunger alone. Letting go of either button disarms the timer and starts nothing. Without a same-tick double press, a timer that is off stays off and no session starts. |
| `Session.HoldToStartRule` | code.py:307-323 | A session starts exactly when both buttons are held, no new double press arrives this tick, and a hold timer armed earlier is at least 6 s old. Starting sets leg 1, a work leg from now, the hold timer off and "POMO!". |
| `Session.HoldingKeepsCountingDown` | code.py:300-325 | While both buttons stay held with no new presses, every tick before t0+6 keeps the pet idle, armed at t0, with food and hunger unchanged. |
| `Session.SessionStepProgress` | code.py:326-399 | A session tick either stays in its phase or moves to the next one. It moves only after the phase's full length and with both buttons held, and the phase timer then restarts. The leg counter moves only up by 1, at the end of a break. A session ends only from the work of its last leg, with "Good Job!". |
| `Session.SessionPhaseEnds` | code.py:326-399 | The converse: once a work leg has lasted its length, the pet says "Break Time!". With both buttons held, the leg is paid and a break starts, or, after the last leg, the session ends with the bonus and "Good Job!". Once a break has lasted its length, the pet announces the next round, and with both buttons held the next leg starts. |
| `Session.SessionRunPhases` | code.py:326-399 | Over any stretch of a session, the number of work legs ended equals the legs paid for, and the number of breaks ended equals the rise in the leg counter. When the session ends, they reach legsInSession and legsInSession-1 counted from the start of the stretch. |
| `Session.CompletedSessionPhases` | code.py:326-399 | A session followed from its start to its end has exactly legsInSession work legs and legsInSession-1 breaks. |
| `Session.SessionStepLedger` | code.py:340-360 | Each completed leg pays exactly foodForLeg. Ending the session brings the total paid for the session to exactly SessionRewards. |
| `Session.SessionRunLedger` | code.py:326-399 | Over any stretch of a session, the food paid is foodForLeg per completed leg. If the session ends, the total is SessionRewards minus what earlier legs already paid. |
| `Session.CompletedSessionPaysRewards` | code.py:343-360 | A session followed from its start to its end pays exactly SessionRewards = foodForLeg*legsInSession + foodForSession. |
| `Loop.Tick` | code.py:255-399 | One loop pass keeps the invariant. The run-away latch never resets. A pet that ran away keeps its food (0), session, leg, break and hold fields, and its hunger does not rise. |
| `Loop.Run` | code.py:255-401 | The loop over a sequence of ticks: no ticks leave the record unchanged, and a pet that ran away stays gone. |
| `Loop.RunKeepsInv` | code.py:255-399 | After any number of ticks: food >= 0, 1 <= currentLeg <= legsInSession inside a session, breaks only before the last leg, and the hold timer is off during sessions. |
| `Loop.RunFromStartKeepsInv` | code.py:167-187 | Starting from the power-on record, the invariant holds after every run of ticks. |
| `Loop.RunAwayIsPermanent` | code.py:281-299 | After any number of further ticks a pet that ran away is still gone. It has no food, its hunger has not risen, and its session fields are frozen. |
| `Loop.RunAwayDuringSession` | code.py:262-284 | A pet can run away in the middle of a session: with no food and hunger one above the threshold, a due hunger step sets the latch while the session flag stays on. |
| `Loop.RunAwayReachableInSession` | code.py:255-401 | With the shipped settings, this run of the loop from power-on ends with the pet gone in the middle of a session with no food: ten single presses on a Sunday, a double press at 11 held to 17, then six ticks 7200 s apart on a Wednesday. |
| `PetText.IntToStringRoundTrip` | code.py:78-82 | Printing an integer as Python does and reading it back gives the same integer. |
| `PetText.NatToString` | code.py:78-82 | Decimal digits only, at least one, one exactly for n < 10, and no leading zero for n > 0. |
| `PetText.FoodText` | code.py:78-82 | The food readout begins with the printed food count. It ends in " FUD (HRNGY!)" exactly when hunger < 0, and in " FUD" otherwise. |
| `PetText.FoodTextReadsBack` | code.py:78-82 | The food count reads back exactly from the start of the readout. |
| `PetText.ClockText` | code.py:74-76 | The clock readout is 9 characters: the weekday name, a space, a 2-digit hour, ':', and a 2-digit minute. |
| `PetText.ClockTextLayout` | code.py:74-76 | The hour and minute read back exactly from the clock readout. |
| `Colors.ColorWheel` | code.py:37-56 | For pos in 0..255 every component is in 0..255, the components sum to 255, and at least one is 0. Any other pos gives black. |
| `Colors.ColorWheelIsSmooth` | code.py:37-56 | Neighbouring positions, including 255 to 0, differ by at most 3 in each component. |
| `Device.Pomodachi.constructor` | code.py:167-186 | The object starts as the power-on record and satisfies the invariant. |
| `Device.Pomodachi.Feed` | code.py:84-91 | The in-place update equals `Hunger.Feed` of the old record and keeps the invariant. |
| `Device.Pomodachi.Hungry` | code.py:93-102 | The in-place update equals `Hunger.Hungry` of the old record and keeps the invariant. |
| `Device.Pomodachi.Tick` | code.py:255-401 | One loop pass in place equals `Loop.Tick` of the old record and keeps the invariant. |
| `Device.Pomodachi.HungerStep` | code.py:262-265 | The in-place hunger trigger equals `Hunger.HungerStep`. |
| `Device.Pomodachi.ClearSpeech` | code.py:273-279 | The in-place speech clearing equals the corrected `Speech.ClearSpeech`. |
| `Device.Pomodachi.SessionStep` | code.py:281-399 | The in-place session branch equals `Session.SessionStep`. |
| `Device.Pomodachi.IdleStep` | code.py:300-325 | The in-place idle branch equals `Session.IdleStep`. |
| `Device.Pomodachi.IdlePress` | code.py:301-304 | The in-place press handling equals `Session.IdlePress`. |
| `Device.Pomodachi.IdleHold` | code.py:307-325 | The in-place hold-to-start countdown equals `Session.IdleHold`. |
| `Device.Pomodachi.WorkStep` | code.py:327-360 | The in-place work-leg branch equals `Session.WorkStep`. |
| `Device.Pomodachi.BreakStep` | code.py:361-399 | The in-place break branch equals `Session.BreakStep`. |

## Left out

- Hardware setup is not modelled: I2C, the real-time clock, the NeoPixels, the digital pins and
  the debouncer (code.py:146-164). The clock becomes the `now` and `weekday` of a tick, and the
  buttons become four booleans.
- The clock is read once per tick. The source calls `rtc.datetime` several times per pass, so a
  second boundary between those calls could give one pass two different times. That is not
  modelled.
- Display and graphics are not modelled: building the screen, adding and removing screen groups,
  group scale and position, the advice texts during breaks, the run-away screen's text, and the
  `pomo_gone` flag that only guards those screen changes (code.py:190-254, 282-298, 316-318,
  348-350, 356-360, 364-389, 393-395, 399).
- `wander_face` (code.py:104-118) is left out: it is a floating-point sine animation.
- `rainbow_cycle`, the pixel brightness changes and the cycle speed (code.py:58-63, 268-269, 329,
  341, 363, 391) are left out as LED output. The work-leg bounce (code.py:330-339) is left out as
  screen coordinates.
- `update_status_text`, `setup_text` and `get_speech_bubble` (code.py:65-72, 120-136) only place
  labels, so they are left out. The texts they show are modelled by `PetText.FoodText`,
  `PetText.ClockText` and the `speech` field.
- `time.sleep(TICK_SIZE)` (code.py:401) and the animation phase accumulator are timing only.
- `color_wheel`'s four-component result for RGBW pixels is not modelled: the pixels are GRB, so
  only the three-component branch is ever taken.
- `Session.SessionRunLedger`: it counts only the food the session machine pays, over runs of the
  session step alone. A hunger step that eats a food during a session is accounted separately by
  `Hunger.HungerStep`.
- `Session.CompletedSessionPaysRewards`: like `Session.SessionRunLedger`, it is stated over runs
  of the session step alone, so food eaten by hunger steps during the session is not counted.
- `Session.HoldingKeepsCountingDown`: stated over the session step alone. A hunger step can still
  make the pet run away during the hold, and then the run-away branch takes over.
- `Session.SessionRunPhases`: it counts phases over runs of the session step alone, like the
  ledger lemmas above.
- `Session.CompletedSessionPhases`: its count of legsInSession work legs and legsInSession-1
  breaks is stated over runs of the session step alone.
- `Speech.ClearSpeech`: three seconds are guaranteed only to a message set while the timer is off
  (`Speech.FreshMessageLastsThreeSeconds`). A message set while an earlier clear is pending keeps
  the older timer (`Speech.PendingTimerIsInherited`), except where the code restarts the timer
  with the message (code.py:265, 310, 314, 355).
- A pet that runs away during a session crashes the loop as written. Starting a session takes the
  food and clock labels off the screen (code.py:316-318), and they come back only when the
  session ends (code.py:359-360). The run-away branch removes them again (code.py:283-284), which
  raises an error in the display library. The model has no screen, so its run-away branch
  simply takes over. `Loop.RunAwayDuringSession` shows that one tick can set the latch while a session is
  running, and `Loop.RunAwayReachableInSession` reaches that state from power-on.
- `PetState.Initial`: the power-on record is a plain value. Its property is stated by
  `PetState.InitialInv`.
- `Loop.RunKeepsInv`: assumes a configuration with one eating rate per weekday, at least one leg,
  and non-negative rewards, as the shipped one has. With negative rewards the food store could go
  negative.

## Findings

| source | as written | input that shows it | evidently intended | confidence | as-written member | corrected member |
|---|---|---|---|---|---|---|
| code.py:279 | `last_speech_clear == -1` compares and discards the result, so the clearing timer is never switched off once armed | Power-on "Hi!" arms the timer at 0 and is wiped at 3. A feeding at 10 says "*NOM*", which is wiped on the next tick (still at 10) because the stale timer is already 10 s old | `last_speech_clear = -1`, so a message set while the timer is off is shown for 3 s from the tick after it is set | high (not executed) | `Speech.AsWrittenWipesFreshMessage` | `Speech.FreshMessageLastsThreeSeconds` |

`Loop.Tick` and `Device.Pomodachi.Tick` use the corrected clearing, `Speech.ClearSpeech`.
`Speech.ClearSpeechAsWritten` keeps the line as written.

=== FILE: colors.dfy ===
/** The colour wheel that drives the pet's two front pixels (`color_wheel`). The pixels are
    wired in GRB order, so the wheel yields a three-component colour. */
module Colors {

  datatype Rgb = Rgb(r: int, g: int, b: int)

  predicate InByteRange(c: Rgb) {
    0 <= c.r <= 255 && 0 <= c.g <= 255 && 0 <= c.b <= 255
  }

  /** Red fades into green into blue and back to red as `pos` runs over 0..255; any other
      position is black. Each colour mixes at most two primaries at full total intensity. */
  function ColorWheel(pos: int): (c: Rgb)
    ensures 0 <= pos <= 255 ==> InByteRange(c) && c.r + c.g + c.b == 255
    ensures 0 <= pos <= 255 ==> c.r == 0 || c.g == 0 || c.b == 0
    ensures pos < 0 || pos > 255 ==> c == Rgb(0, 0, 0)
  {
    if pos < 0 || pos > 255 then Rgb(0, 0, 0)
    else if pos < 85 then Rgb(pos * 3, 255 - pos * 3, 0)
    else if pos < 170 then Rgb(255 - (pos - 85) * 3, 0, (pos - 85) * 3)
    else Rgb(0, (pos - 170) * 3, 255 - (pos - 170) * 3)
  }

  function Dist(x: int, y: int): nat {
    if x < y then y - x else x - y
  }

  /** Neighbouring wheel positions differ by at most 3 in every component, including the step
      from 255 back round to 0, so cycling the wheel never jumps. */
  lemma ColorWheelIsSmooth(pos: int)
    requires 0 <= pos <= 255
    ensures var c, d := ColorWheel(pos), ColorWheel((pos + 1) % 256);
            Dist(c.r, d.r) <= 3 && Dist(c.g, d.g) <= 3 && Dist(c.b, d.b) <= 3
  {
    var next := if pos == 255 then 0 else pos + 1;
    assert (pos + 1) % 256 == next;
    var c, d := ColorWheel(pos), ColorWheel(next);
    if pos == 255 {
      assert c == Rgb(0, 255, 0) && d == Rgb(0, 255, 0);
    } else if pos < 84 {
      assert d.r - c.r == 3 && c.g - d.g == 3 && c.b == d.b == 0;
    } else if pos == 84 {
      assert c == Rgb(252, 3, 0) && d == Rgb(255, 0, 0);
    } else if pos < 169 {
      assert c.r - d.r == 3 && c.g == d.g == 0 && d.b - c.b == 3;
    } else if pos == 169 {
      assert c == Rgb(3, 0, 252) && d == Rgb(0, 0, 255);
    } else {
      assert c.r == d.r == 0 && d.g - c.g == 3 && c.b - d.b == 3;
    }
  }
}

=== FILE: device.dfy ===
/** The running device: the mutable pet record and the loop globals as fields of one object,
    updated in place by feeding, hunger steps and the main-loop tick. Each method is proved to
    compute exactly the pure step of the same name, so everything proved about those steps
    holds of the object. */
module Device {
  import opened PetState
  import Hunger
  import Speech
  import Session
  import Loop
  import PetText

  class Pomodachi {
    const config: Config

    var hunger: int
    var food: int
    var speech: string
    var lastHunger: int
    var runAway: bool

    var bothDownTime: int
    var isInSession: bool
    var isInBreak: bool
    var currentLeg: int
    var legBreakStart: int
    var lastSpeechClear: int

    /** The fields as a value of the pure model. */
    function State(): Pet
      reads this
    {
      Pet(hunger, food, speech, lastHunger, runAway, bothDownTime, isInSession, isInBreak,
          currentLeg, legBreakStart, lastSpeechClear)
    }

    ghost predicate Valid()
      reads this
    {
      ValidConfig(config) && Inv(config, State())
    }

    /** Power-on: the shipped record, its hunger clock started at `now`. */
    constructor (c: Config, now: int)
      requires ValidConfig(c)
      ensures config == c && State() == Initial(now) && Valid()
    {
      config := c;
      hunger, food, speech, lastHunger, runAway := 0, 10, "Hi!", now, false;
      bothDownTime, isInSession, isInBreak := Unset, false, false;
      currentLeg, legBreakStart, lastSpeechClear := -1, Unset, Unset;
    }

    method Feed()
      modifies this
      ensures State() == Hunger.Feed(config, old(State()))
      ensures old(Valid()) ==> Valid()
    {
      if food > 0 {
        food := food - 1;
        if hunger <= 0 {
          hunger := hunger + config.hungerMultiplier;
        } else {
          hunger := hunger + 1;
        }
      }
      speech := "*NOM*";
    }

    method Hungry()
      modifies this
      ensures State() == Hunger.Hungry(config, old(State()))
      ensures old(Valid()) ==> Valid()
    {
      hunger := hunger - 1;
      if hunger <= HungerThreshold(config) {
        if food > 0 {
          food := food - 1;
          hunger := hunger + 1;
        } else {
          runAway := true;
        }
      }
      speech := "*GURGLE*";
    }

    /** One pass of the main loop at clock time `now` on `weekday`, with the buttons as polled. */
    method Tick(now: int, weekday: int, buttons: Buttons)
      requires Valid() && 0 <= weekday < |config.eatingRate|
      modifies this
      ensures Valid()
      ensures State() == Loop.Tick(config, old(State()), Sample(now, weekday, buttons))
    {
      HungerStep(now, weekday);
      ClearSpeech(now);
      SessionStep(now, buttons);
    }

    /** The hunger step of a tick: a hunger step once today's period has elapsed. */
    method HungerStep(now: int, weekday: int)
      requires 0 <= weekday < |config.eatingRate|
      modifies this
      ensures State() == Hunger.HungerStep(config, old(State()), now, weekday)
    {
      if now - lastHunger >= Hunger.SecondsForHunger(config, weekday) {
        Hungry();
        lastHunger := now;
        lastSpeechClear := now;
      }
    }

    /** Speech clearing, with the timer switched off when it fires. */
    method ClearSpeech(now: int)
      modifies this
      ensures State() == Speech.ClearSpeech(old(State()), now)
    {
      if speech != "" && lastSpeechClear == Unset {
        lastSpeechClear := now;
      }
      if lastSpeechClear != Unset && now - lastSpeechClear >= Speech.ClearAfter {
        speech := "";
        lastSpeechClear := Unset;
      }
    }

    /** The session machine's part of a tick. */
    method SessionStep(now: int, buttons: Buttons)
      modifies this
      ensures State() == Session.SessionStep(config, old(State()), now, buttons)
    {
      if runAway {
      } else if !isInSession {
        IdleStep(now, buttons);
      } else if !isInBreak {
        WorkStep(now, buttons);
      } else {
        BreakStep(now, buttons);
      }
    }

    method IdleStep(now: int, buttons: Buttons)
      modifies this
      ensures State() == Session.IdleStep(config, old(State()), now, buttons)
    {
      IdlePress(now, buttons);
      IdleHold(now, buttons);
    }

    method IdlePress(now: int, buttons: Buttons)
      modifies this
      ensures State() == Session.IdlePress(config, old(State()), now, buttons)
    {
      if buttons.leftFell && buttons.rightFell {
        bothDownTime := now;
      } else if buttons.leftFell || buttons.rightFell {
        Feed();
      }
    }

    method IdleHold(now: int, buttons: Buttons)
      modifies this
      ensures State() == Session.IdleHold(old(State()), now, buttons)
    {
      if buttons.leftHeld && buttons.rightHeld && bothDownTime != Unset {
        var delta := now - bothDownTime;
        speech := "Start in " + PetText.IntToString(Session.CountdownFrom - delta);
        lastSpeechClear := now;
        if delta >= Session.HoldToStart {
          speech := "POMO!";
          lastSpeechClear := now;
          bothDownTime := Unset;
          isInSession := true;
          legBreakStart := now;
          currentLeg := 1;
          isInBreak := false;
        }
      } else if bothDownTime != Unset {
        bothDownTime := Unset;
      }
    }

    method WorkStep(now: int, buttons: Buttons)
      modifies this
      ensures State() == Session.WorkStep(config, old(State()), now, buttons)
    {
      if now - legBreakStart >= config.lengthOfLeg * 60 {
        speech := "Break Time!";
        if buttons.leftHeld && buttons.rightHeld {
          legBreakStart := now;
          food := food + config.foodForLeg;
          if currentLeg < config.legsInSession {
            isInBreak := true;
          } else {
            isInSession := false;
            food := food + config.foodForSession;
            speech := "Good Job!";
            lastSpeechClear := now;
          }
        }
      }
    }

    method BreakStep(now: int, buttons: Buttons)
      modifies this
      ensures State() == Session.BreakStep(config, old(State()), now, buttons)
    {
      if now - legBreakStart >= config.lengthOfBreak * 60 {
        speech := "Round " + PetText.IntToString(currentLeg + 1) + "!";
        if buttons.leftHeld && buttons.rightHeld {
          legBreakStart := now;
          isInBreak := false;
          currentLeg := currentLeg + 1;
        }
      }
    }
  }
}

=== FILE: hunger.dfy ===
/** The hunger economy: feeding, the periodic hunger step and starvation. */
module Hunger {
  import opened PetState

  /** Python's floor division `a // b`; Dafny's `/` is Euclidean and differs when `b < 0`. */
  function FloorDiv(a: int, b: int): (q: int)
    requires b != 0
    ensures b > 0 ==> q * b <= a < q * b + b
    ensures b < 0 ==> q * b + b < a <= q * b
  {
    if b > 0 then a / b else (-a) / (-b)
  }

  const SecondsPerDay := 24 * 60 * 60

  /** Hunger steps per day on `weekday`: the day's eating rate times the rewards of one session. */
  function StepsPerDay(c: Config, weekday: int): int
    requires 0 <= weekday < |c.eatingRate|
  {
    c.eatingRate[weekday] * SessionRewards(c)
  }

  /** Seconds between hunger steps on `weekday`: a day divided (rounding down, as Python's `//`)
      by the steps per day, a zero count standing for one step, so the division is always defined. */
  function SecondsForHunger(c: Config, weekday: int): (s: int)
    requires 0 <= weekday < |c.eatingRate|
    ensures StepsPerDay(c, weekday) == 0 ==> s == SecondsPerDay
    ensures var d := StepsPerDay(c, weekday);
            d > 0 ==> s * d <= SecondsPerDay < s * d + d
    ensures var d := StepsPerDay(c, weekday);
            d < 0 ==> s * d + d < SecondsPerDay <= s * d
  {
    var perDay := StepsPerDay(c, weekday);
    FloorDiv(SecondsPerDay, if perDay == 0 then 1 else perDay)
  }

  /** The period is at least a second while there are at most a day's seconds of steps per day,
      zero beyond that (a hunger step every tick), and negative for a negative rate. */
  lemma HungerPeriodBounds(c: Config, weekday: int)
    requires 0 <= weekday < |c.eatingRate|
    ensures var d, s := StepsPerDay(c, weekday), SecondsForHunger(c, weekday);
            && (0 < d <= SecondsPerDay ==> s >= 1)
            && (d > SecondsPerDay ==> s == 0)
            && (d < 0 ==> s < 0)
  {
  }

  /** What one feeding gives: the catch-up multiplier for a pet at or below zero hunger, else one. */
  function FeedGain(c: Config, p: Pet): int {
    if p.hunger <= 0 then c.hungerMultiplier else 1
  }

  /** Feeding: a food is spent only if there is one, and buys FeedGain hunger; the pet
      always says "*NOM*"; nothing else changes. */
  function Feed(c: Config, p: Pet): (r: Pet)
    ensures r.speech == "*NOM*"
    ensures p.food > 0 ==> r.food == p.food - 1
    ensures p.food <= 0 ==> r.food == p.food
    ensures r.hunger - p.hunger == (p.food - r.food) * FeedGain(c, p)
    ensures r.(hunger := p.hunger, food := p.food, speech := p.speech) == p
  {
    if p.food > 0 then
      p.(food := p.food - 1, hunger := p.hunger + FeedGain(c, p), speech := "*NOM*")
    else
      p.(speech := "*NOM*")
  }

  /** A hunger step: food plus hunger always drops by exactly one. At or below the threshold a
      food is eaten to undo the hunger lost; with no food left the pet runs away, and once it has
      run away it stays away. The pet says "*GURGLE*"; nothing else changes. */
  function Hungry(c: Config, p: Pet): (r: Pet)
    ensures r.speech == "*GURGLE*"
    ensures r.food + r.hunger == p.food + p.hunger - 1
    ensures r.food == (if p.hunger - 1 <= HungerThreshold(c) && p.food > 0 then p.food - 1 else p.food)
    ensures r.runAway <==> p.runAway || (p.hunger - 1 <= HungerThreshold(c) && p.food <= 0)
    ensures r.(hunger := p.hunger, food := p.food, speech := p.speech, runAway := p.runAway) == p
  {
    var q := p.(hunger := p.hunger - 1);
    var q' := if q.hunger <= HungerThreshold(c) then
                (if q.food > 0 then q.(food := q.food - 1, hunger := q.hunger + 1) else q.(runAway := true))
              else q;
    q'.(speech := "*GURGLE*")
  }

  /** The hunger part of one tick: a hunger step fires once the period for today has elapsed since
      the last one; it then restarts the hunger period and the speech timer at `now`. */
  function HungerStep(c: Config, p: Pet, now: int, weekday: int): (r: Pet)
    requires 0 <= weekday < |c.eatingRate|
    ensures var fired := now - p.lastHunger >= SecondsForHunger(c, weekday);
            && r.food + r.hunger == p.food + p.hunger - (if fired then 1 else 0)
            && (fired ==> r.lastHunger == now && r.lastSpeechClear == now && r.speech == "*GURGLE*")
            && (fired ==> r == Hungry(c, p).(lastHunger := now, lastSpeechClear := now))
            && (!fired ==> r == p)
  {
    if now - p.lastHunger >= SecondsForHunger(c, weekday) then
      Hungry(c, p).(lastHunger := now, lastSpeechClear := now)
    else
      p
  }

  /** Feeding and hunger steps keep the invariant. */
  lemma FeedKeepsInv(c: Config, p: Pet)
    requires Inv(c, p)
    ensures Inv(c, Feed(c, p))
  {
  }

  lemma HungerStepKeepsInv(c: Config, p: Pet, now: int, weekday: int)
    requires Inv(c, p) && 0 <= weekday < |c.eatingRate|
    ensures Inv(c, HungerStep(c, p, now, weekday))
  {
  }

  /** With no food, feeding changes nothing but the speech, so feeding again changes nothing. */
  lemma FeedWithoutFood(c: Config, p: Pet)
    requires p.food == 0
    ensures Feed(c, p) == p.(speech := "*NOM*")
    ensures Feed(c, Feed(c, p)) == Feed(c, p)
  {
  }

  /** With the shipped settings (threshold 6): a hunger step from 1 to 0 eats a food and leaves
      hunger at 1; the same step with an empty store makes the pet run away. */
  lemma StarvationScenario(p: Pet)
    requires p.hunger == 1 && !p.runAway
    ensures p.food > 0 ==>
              var r := Hungry(DefaultConfig(), p);
              r.food == p.food - 1 && r.hunger == 1 && !r.runAway
    ensures p.food == 0 ==> Hungry(DefaultConfig(), p).runAway
  {
  }
}

=== FILE: loop.dfy ===
/** One pass of the device's main loop, and runs of many passes. Each tick reads the clock and
    buttons once, then applies the hunger step, speech clearing and the session machine, in the
    order the loop does. */
module Loop {
  import opened PetState
  import Hunger
  import Speech
  import Session

  predicate ValidSample(c: Config, s: Sample) {
    0 <= s.weekday < |c.eatingRate|
  }

  predicate ValidSamples(c: Config, ss: seq<Sample>) {
    forall i :: 0 <= i < |ss| ==> ValidSample(c, ss[i])
  }

  /** One tick. The invariant is kept, the run-away latch never resets, and once the pet has
      run away the session fields and the food store never change. */
  function Tick(c: Config, p: Pet, s: Sample): (r: Pet)
    requires ValidSample(c, s)
    ensures ValidConfig(c) && Inv(c, p) ==> Inv(c, r)
    ensures p.runAway ==> r.runAway
    ensures p.runAway && Inv(c, p) ==>
              r.hunger <= p.hunger &&
              r.(hunger := p.hunger, speech := p.speech, lastHunger := p.lastHunger,
                 lastSpeechClear := p.lastSpeechClear) == p
  {
    var p1 := Hunger.HungerStep(c, p, s.now, s.weekday);
    var p2 := Speech.ClearSpeech(p1, s.now);
    Session.SessionStep(c, p2, s.now, s.buttons)
  }

  /** The loop over a sequence of ticks. */
  function Run(c: Config, p: Pet, ss: seq<Sample>): (r: Pet)
    requires ValidSamples(c, ss)
    ensures p.runAway ==> r.runAway
    ensures ss == [] ==> r == p
    decreases |ss|
  {
    if ss == [] then p else Run(c, Tick(c, p, ss[0]), ss[1..])
  }

  /** The invariant holds after any number of ticks from the start-up record: food is never
      negative, the leg counter stays within 1..legsInSession inside a session, and so on. */
  lemma {:induction false} RunKeepsInv(c: Config, p: Pet, ss: seq<Sample>)
    requires ValidConfig(c) && Inv(c, p) && ValidSamples(c, ss)
    ensures Inv(c, Run(c, p, ss))
    decreases |ss|
  {
    if ss != [] {
      RunKeepsInv(c, Tick(c, p, ss[0]), ss[1..]);
    }
  }

  lemma RunFromStartKeepsInv(c: Config, now: int, ss: seq<Sample>)
    requires ValidConfig(c) && ValidSamples(c, ss)
    ensures Inv(c, Run(c, Initial(now), ss))
  {
    RunKeepsInv(c, Initial(now), ss);
  }

  /** Running away is forever: after any number of further ticks the pet is still gone, its
      food store stays empty, its hunger never rises, and the session, its leg counter, the break
      flag and every session timer are frozen where they were. */
  lemma {:induction false} RunAwayIsPermanent(c: Config, p: Pet, ss: seq<Sample>)
    requires ValidConfig(c) && Inv(c, p) && p.runAway && ValidSamples(c, ss)
    ensures var r := Run(c, p, ss);
            && r.runAway && r.food == 0 && r.hunger <= p.hunger
            && r.isInSession == p.isInSession && r.isInBreak == p.isInBreak
            && r.currentLeg == p.currentLeg && r.legBreakStart == p.legBreakStart
            && r.bothDownTime == p.bothDownTime
    decreases |ss|
  {
    if ss != [] {
      var q := Tick(c, p, ss[0]);
      assert Inv(c, q);
      RunAwayIsPermanent(c, q, ss[1..]);
    }
  }

  /** A pet can run away in the middle of a session: with an empty food store and hunger one
      above the threshold, a due hunger step during a work leg sets the latch while the session
      flag is still on, and the tick then takes the run-away branch. */
  lemma RunAwayDuringSession(c: Config, p: Pet, s: Sample)
    requires ValidConfig(c) && ValidSample(c, s)
    requires p.isInSession && !p.runAway && p.food == 0 && p.hunger == HungerThreshold(c) + 1
    requires s.now - p.lastHunger >= Hunger.SecondsForHunger(c, s.weekday)
    ensures var r := Tick(c, p, s);
            r.runAway && r.isInSession && r.isInBreak == p.isInBreak && r.currentLeg == p.currentLeg
  {
  }

  /** Unfolding a run at position k: the rest of the run from k is one tick, then the rest. */
  lemma RunFrom(c: Config, p: Pet, ss: seq<Sample>, k: nat)
    requires k < |ss| && ValidSamples(c, ss)
    ensures ValidSamples(c, ss[k..]) && ValidSamples(c, ss[k + 1..])
    ensures Run(c, p, ss[k..]) == Run(c, Tick(c, p, ss[k]), ss[k + 1..])
  {
    assert ss[k..][0] == ss[k];
    assert ss[k..][1..] == ss[k + 1..];
  }

  /** A power-on story with the shipped settings: ten single presses on a Sunday (no hunger steps)
      spend all ten food, a double press at 11 held to 17 starts a session, and on a Wednesday
      (a hunger step every 7200 s) the owner leaves the work leg running. */
  function StarvingSession(): (ss: seq<Sample>)
    ensures |ss| == 18
  {
    seq(10, i => Sample(i + 1, 0, Buttons(true, false, true, false))) +
    [Sample(11, 0, Buttons(true, true, true, true)), Sample(17, 0, Buttons(false, false, true, true))] +
    seq(6, i => Sample(7200 * (i + 1), 3, Buttons(false, false, false, false)))
  }

  /** The samples of StarvingSession, phase by phase. */
  lemma StarvingSessionAt(k: nat)
    requires k < 18
    ensures var s := StarvingSession()[k];
            && (k < 10 ==> s == Sample(k + 1, 0, Buttons(true, false, true, false)))
            && (k == 10 ==> s == Sample(11, 0, Buttons(true, true, true, true)))
            && (k == 11 ==> s == Sample(17, 0, Buttons(false, false, true, true)))
            && (k >= 12 ==> s == Sample(7200 * (k - 11), 3, Buttons(false, false, false, false)))
  {
  }

  /** Feeding phase: before press k+1 the pet has eaten k times and nothing else has happened. */
  predicate Fed(p: Pet, k: int) {
    p.food == 10 - k && p.hunger == (if k == 0 then 0 else k + 2) &&
    !p.runAway && !p.isInSession && p.bothDownTime == Unset && p.lastHunger == 0
  }

  lemma FeedingTick(p: Pet, k: nat, s: Sample)
    requires k < 10 && Fed(p, k) && s == Sample(k + 1, 0, Buttons(true, false, true, false))
    ensures ValidSample(DefaultConfig(), s) && Fed(Tick(DefaultConfig(), p, s), k + 1)
  {
    assert Hunger.SecondsForHunger(DefaultConfig(), 0) == 86400;
  }

  lemma StartingTicks(p: Pet, s1: Sample, s2: Sample)
    requires Fed(p, 10)
    requires s1 == Sample(11, 0, Buttons(true, true, true, true))
    requires s2 == Sample(17, 0, Buttons(false, false, true, true))
    ensures ValidSample(DefaultConfig(), s1) && ValidSample(DefaultConfig(), s2)
    ensures var c := DefaultConfig();
            Starving(Tick(c, Tick(c, p, s1), s2), 0)
  {
    assert Hunger.SecondsForHunger(DefaultConfig(), 0) == 86400;
  }

  /** Hunger phase: after j hunger steps of the first work leg, with nothing to eat. */
  predicate Starving(p: Pet, j: int) {
    p.food == 0 && p.isInSession && !p.isInBreak && p.currentLeg == 1 && p.lastHunger == 7200 * j &&
    (p.runAway <==> j == 6) && (j < 6 ==> p.hunger == 12 - j)
  }

  lemma StarvingTick(p: Pet, j: nat, s: Sample)
    requires j < 6 && Starving(p, j)
    requires s == Sample(7200 * (j + 1), 3, Buttons(false, false, false, false))
    ensures ValidSample(DefaultConfig(), s) && Starving(Tick(DefaultConfig(), p, s), j + 1)
  {
    assert Hunger.SecondsForHunger(DefaultConfig(), 3) == 7200;
  }

  /** The ten presses: the pet ends up with no food and hunger 12, still idle. */
  lemma {:induction false} FeedingPhase() returns (p: Pet)
    ensures ValidSamples(DefaultConfig(), StarvingSession()[10..])
    ensures Fed(p, 10)
    ensures Run(DefaultConfig(), Initial(0), StarvingSession()) ==
            Run(DefaultConfig(), p, StarvingSession()[10..])
  {
    var c, ss := DefaultConfig(), StarvingSession();
    forall k | 0 <= k < |ss| ensures ValidSample(c, ss[k]) {
      StarvingSessionAt(k);
    }
    assert ss[0..] == ss;
    p := Initial(0);
    var k := 0;
    while k < 10
      invariant 0 <= k <= 10 && Fed(p, k)
      invariant Run(c, Initial(0), ss) == Run(c, p, ss[k..])
    {
      RunFrom(c, p, ss, k);
      StarvingSessionAt(k);
      FeedingTick(p, k, ss[k]);
      p, k := Tick(c, p, ss[k]), k + 1;
    }
    RunFrom(c, p, ss, 10);
  }

  /** The double press and the hold: a session starts, with no food and hunger 12. */
  lemma StartingPhase(p: Pet) returns (q: Pet)
    requires Fed(p, 10) && ValidSamples(DefaultConfig(), StarvingSession()[10..])
    ensures ValidSamples(DefaultConfig(), StarvingSession()[12..])
    ensures Starving(q, 0)
    ensures Run(DefaultConfig(), p, StarvingSession()[10..]) ==
            Run(DefaultConfig(), q, StarvingSession()[12..])
  {
    var c, ss := DefaultConfig(), StarvingSession()[10..];
    StarvingSessionAt(10);
    StarvingSessionAt(11);
    assert ss[0] == StarvingSession()[10] && ss[1] == StarvingSession()[11];
    StartingTicks(p, ss[0], ss[1]);
    var p11 := Tick(c, p, ss[0]);
    q := Tick(c, p11, ss[1]);
    RunFrom(c, p, ss, 0);
    RunFrom(c, p11, ss, 1);
    assert ss[0..] == ss && ss[2..] == StarvingSession()[12..];
  }

  /** The six hunger steps during the first work leg: the sixth one makes the pet run away. */
  lemma {:induction false} StarvingPhase(q: Pet)
    requires Starving(q, 0) && ValidSamples(DefaultConfig(), StarvingSession()[12..])
    ensures Starving(Run(DefaultConfig(), q, StarvingSession()[12..]), 6)
  {
    var c, ss := DefaultConfig(), StarvingSession()[12..];
    assert ss[0..] == ss;
    var p := q;
    var j := 0;
    while j < 6
      invariant 0 <= j <= 6 && Starving(p, j)
      invariant Run(c, q, ss) == Run(c, p, ss[j..])
    {
      RunFrom(c, p, ss, j);
      StarvingSessionAt(12 + j);
      assert ss[j] == StarvingSession()[12 + j];
      StarvingTick(p, j, ss[j]);
      p, j := Tick(c, p, ss[j]), j + 1;
    }
    assert ss[6..] == [];
  }

  /** The run-away-in-session state is reachable from power-on: after that story the sixth hunger
      step finds hunger at the threshold and no food, and the pet runs away mid-session. */
  lemma RunAwayReachableInSession()
    ensures ValidSamples(DefaultConfig(), StarvingSession())
    ensures var r := Run(DefaultConfig(), Initial(0), StarvingSession());
            r.runAway && r.isInSession && r.food == 0
  {
    var c, ss := DefaultConfig(), StarvingSession();
    forall k | 0 <= k < |ss| ensures ValidSample(c, ss[k]) {
      StarvingSessionAt(k);
    }
    var p := FeedingPhase();
    var q := StartingPhase(p);
    StarvingPhase(q);
  }
}

=== FILE: session.dfy ===
/** The Pomodoro session machine: the idle screen with feeding and hold-to-start, work legs,
    breaks, and the run-away screen that ends everything. */
module Session {
  import opened PetState
  import Hunger
  import PetText

  /** Seconds both buttons must be held, after being pressed together, to start a session. */
  const HoldToStart := 6

  /** The countdown shown while holding is measured from this number. */
  const CountdownFrom := 5

  /** Idle: a press of exactly one button feeds; pressing both in the same tick arms the hold
      timer; holding both for HoldToStart seconds starts a session; letting go disarms. */
  function IdleStep(c: Config, p: Pet, now: int, b: Buttons): (r: Pet)
    ensures r.runAway == p.runAway && r.lastHunger == p.lastHunger
    ensures (r.food, r.hunger) == (p.food, p.hunger) ||
            (r.food, r.hunger) == (Hunger.Feed(c, p).food, Hunger.Feed(c, p).hunger)
    ensures r.isInSession && !p.isInSession ==>
              r.currentLeg == 1 && !r.isInBreak && r.legBreakStart == now &&
              r.bothDownTime == Unset && r.speech == "POMO!"
    ensures !r.isInSession ==>
              !p.isInSession && r.currentLeg == p.currentLeg && r.isInBreak == p.isInBreak &&
              r.legBreakStart == p.legBreakStart
    ensures var armed := if b.leftFell && b.rightFell then now else p.bothDownTime;
            !r.isInSession ==> r.bothDownTime == (if BothHeld(b) then armed else Unset)
    ensures var armed := if b.leftFell && b.rightFell then now else p.bothDownTime;
            && (BothHeld(b) && armed != Unset ==>
                  r.lastSpeechClear == now &&
                  (now - armed < HoldToStart ==>
                     r.speech == "Start in " + PetText.IntToString(CountdownFrom - (now - armed))))
            && (!(BothHeld(b) && armed != Unset) ==>
                  r.lastSpeechClear == p.lastSpeechClear &&
                  r.speech == (if b.leftFell != b.rightFell then "*NOM*" else p.speech))
  {
    IdleHold(IdlePress(c, p, now, b), now, b)
  }

  /** The first half of an idle tick: the new presses. */
  function IdlePress(c: Config, p: Pet, now: int, b: Buttons): Pet {
    if b.leftFell && b.rightFell then p.(bothDownTime := now)
    else if b.leftFell || b.rightFell then Hunger.Feed(c, p)
    else p
  }

  /** The second half of an idle tick: the hold-to-start countdown. */
  function IdleHold(p: Pet, now: int, b: Buttons): Pet {
    if BothHeld(b) && p.bothDownTime != Unset then
      var delta := now - p.bothDownTime;
      if delta >= HoldToStart then
        p.(speech := "POMO!", lastSpeechClear := now, bothDownTime := Unset,
           isInSession := true, legBreakStart := now, currentLeg := 1, isInBreak := false)
      else
        p.(speech := "Start in " + PetText.IntToString(CountdownFrom - delta), lastSpeechClear := now)
    else if p.bothDownTime != Unset then
      p.(bothDownTime := Unset)
    else
      p
  }

  /** A work leg: once it has lasted its length the pet asks for a break; holding both buttons
      then pays the leg's food and goes on to a break, or, after the last leg, also pays the
      session bonus and ends the session. */
  function WorkStep(c: Config, p: Pet, now: int, b: Buttons): (r: Pet)
    ensures now - p.legBreakStart < c.lengthOfLeg * 60 ==> r == p
    ensures r.(speech := p.speech, lastSpeechClear := p.lastSpeechClear,
               legBreakStart := p.legBreakStart, food := p.food, isInBreak := p.isInBreak,
               isInSession := p.isInSession) == p
    ensures var ends := now - p.legBreakStart >= c.lengthOfLeg * 60 && BothHeld(b);
            && (!ends ==> r.food == p.food && r.legBreakStart == p.legBreakStart &&
                          r.isInBreak == p.isInBreak && r.isInSession == p.isInSession)
            && (ends ==> r.legBreakStart == now && r.food - p.food ==
                           c.foodForLeg + (if p.currentLeg < c.legsInSession then 0 else c.foodForSession))
            && (ends && p.currentLeg < c.legsInSession ==> r.isInBreak && r.isInSession == p.isInSession)
            && (ends && p.currentLeg >= c.legsInSession ==> !r.isInSession && r.speech == "Good Job!")
    ensures var last := BothHeld(b) && p.currentLeg >= c.legsInSession;
            now - p.legBreakStart >= c.lengthOfLeg * 60 ==>
              r.speech == (if last then "Good Job!" else "Break Time!") &&
              r.lastSpeechClear == (if last then now else p.lastSpeechClear)
  {
    if now - p.legBreakStart < c.lengthOfLeg * 60 then p
    else
      var p1 := p.(speech := "Break Time!");
      if BothHeld(b) then
        var p2 := p1.(legBreakStart := now, food := p1.food + c.foodForLeg);
        if p.currentLeg < c.legsInSession then p2.(isInBreak := true)
        else p2.(isInSession := false, food := p2.food + c.foodForSession,
                 speech := "Good Job!", lastSpeechClear := now)
      else p1
  }

  /** A break: once it has lasted its length the pet announces the next round; holding both
      buttons then starts the next work leg. */
  function BreakStep(c: Config, p: Pet, now: int, b: Buttons): (r: Pet)
    ensures now - p.legBreakStart < c.lengthOfBreak * 60 ==> r == p
    ensures r.(speech := p.speech, legBreakStart := p.legBreakStart, isInBreak := p.isInBreak,
               currentLeg := p.currentLeg) == p
    ensures r.currentLeg == p.currentLeg || r.currentLeg == p.currentLeg + 1
    ensures r.currentLeg == p.currentLeg + 1 ==>
              !r.isInBreak && r.legBreakStart == now && BothHeld(b)
    ensures r.currentLeg == p.currentLeg ==>
              r.isInBreak == p.isInBreak && r.legBreakStart == p.legBreakStart
  {
    if now - p.legBreakStart < c.lengthOfBreak * 60 then p
    else
      var p1 := p.(speech := "Round " + PetText.IntToString(p.currentLeg + 1) + "!");
      if BothHeld(b) then p1.(legBreakStart := now, isInBreak := false, currentLeg := p.currentLeg + 1)
      else p1
  }

  /** The session part of one tick. A pet that ran away ends all session logic. */
  function SessionStep(c: Config, p: Pet, now: int, b: Buttons): (r: Pet)
    ensures ValidConfig(c) && Inv(c, p) ==> Inv(c, r)
    ensures r.runAway == p.runAway && r.lastHunger == p.lastHunger
    ensures p.runAway ==> r == p
  {
    if p.runAway then p
    else if !p.isInSession then IdleStep(c, p, now, b)
    else if !p.isInBreak then WorkStep(c, p, now, b)
    else BreakStep(c, p, now, b)
  }

  /** Idle press rules: a same-tick press of both buttons arms the hold timer without feeding,
      and nothing else arms it; a press of exactly one button feeds; no press, no food change;
      letting go of either button disarms the timer and starts nothing. */
  lemma IdlePressRules(c: Config, p: Pet, now: int, b: Buttons)
    requires !p.runAway && !p.isInSession
    ensures var r := SessionStep(c, p, now, b);
            && (b.leftFell && b.rightFell ==> r.food == p.food && r.hunger == p.hunger)
            && (b.leftFell && b.rightFell && BothHeld(b) ==> r.bothDownTime == now && !r.isInSession)
            && (b.leftFell != b.rightFell ==>
                  r.food == Hunger.Feed(c, p).food && r.hunger == Hunger.Feed(c, p).hunger)
            && (!b.leftFell && !b.rightFell ==> r.food == p.food && r.hunger == p.hunger)
            && (!BothHeld(b) ==> r.bothDownTime == Unset && !r.isInSession)
            && (!(b.leftFell && b.rightFell) && p.bothDownTime == Unset ==>
                  r.bothDownTime == Unset && !r.isInSession)
  {
  }

  /** When a session starts: exactly when both buttons are held and the hold timer, armed on an
      earlier tick, is at least HoldToStart seconds old. Starting puts the machine in leg 1 of a
      work leg that begins now, disarms the timer and says "POMO!". */
  lemma HoldToStartRule(c: Config, p: Pet, now: int, b: Buttons)
    requires !p.runAway && !p.isInSession
    ensures var r := SessionStep(c, p, now, b);
            r.isInSession <==> BothHeld(b) && !(b.leftFell && b.rightFell) &&
                               p.bothDownTime != Unset && now - p.bothDownTime >= HoldToStart
    ensures var r := SessionStep(c, p, now, b);
            r.isInSession ==> r.currentLeg == 1 && !r.isInBreak && r.legBreakStart == now &&
                              r.bothDownTime == Unset && r.speech == "POMO!"
  {
  }

  /** The session machine alone, run over a sequence of ticks (hunger and speech left aside). */
  function SessionRun(c: Config, p: Pet, ss: seq<Sample>): Pet
    decreases |ss|
  {
    if ss == [] then p else SessionRun(c, SessionStep(c, p, ss[0].now, ss[0].buttons), ss[1..])
  }

  /** Holding on: a pet whose hold timer was armed at `t0` and whose owner keeps both buttons
      down, pressing nothing new, stays idle and armed at `t0` through every tick before t0+6,
      with its food and hunger untouched; by HoldToStartRule the next tick at or after t0+6 starts
      the session. */
  lemma {:induction false} HoldingKeepsCountingDown(c: Config, p: Pet, ss: seq<Sample>)
    requires !p.runAway && !p.isInSession && p.bothDownTime != Unset
    requires forall i :: 0 <= i < |ss| ==>
               BothHeld(ss[i].buttons) && !ss[i].buttons.leftFell && !ss[i].buttons.rightFell &&
               ss[i].now - p.bothDownTime < HoldToStart
    ensures var r := SessionRun(c, p, ss);
            !r.isInSession && !r.runAway && r.bothDownTime == p.bothDownTime &&
            r.food == p.food && r.hunger == p.hunger
    decreases |ss|
  {
    if ss != [] {
      var q := SessionStep(c, p, ss[0].now, ss[0].buttons);
      assert forall i :: 0 <= i < |ss[1..]| ==> ss[1..][i] == ss[i + 1];
      HoldingKeepsCountingDown(c, q, ss[1..]);
    }
  }

  /** How far a session has got: 0 in the first work leg, then one more for every phase entered
      (leg n's work is 2(n-1), the break after it 2(n-1)+1). */
  function Progress(p: Pet): int {
    2 * (p.currentLeg - 1) + (if p.isInBreak then 1 else 0)
  }

  /** Legs already paid for in the current session. */
  function LegsDone(p: Pet): int {
    if p.isInBreak then p.currentLeg else p.currentLeg - 1
  }

  /** Each tick of a session either stays in its phase or moves to the very next one, and only
      after the phase has run its full length and both buttons are held; the leg counter only
      ever moves up by one, at the end of a break. A session ends only from the work of its last
      leg. */
  lemma SessionStepProgress(c: Config, p: Pet, now: int, b: Buttons)
    requires ValidConfig(c) && Inv(c, p) && !p.runAway && p.isInSession
    ensures var r := SessionStep(c, p, now, b);
            r.isInSession ==> Progress(r) == Progress(p) || Progress(r) == Progress(p) + 1
    ensures var r := SessionStep(c, p, now, b);
            r.currentLeg == p.currentLeg ||
            (p.isInBreak && !r.isInBreak && r.currentLeg == p.currentLeg + 1)
    ensures var r := SessionStep(c, p, now, b);
            var length := if p.isInBreak then c.lengthOfBreak * 60 else c.lengthOfLeg * 60;
            (!r.isInSession || Progress(r) != Progress(p)) ==>
              BothHeld(b) && now - p.legBreakStart >= length && r.legBreakStart == now
    ensures var r := SessionStep(c, p, now, b);
            !r.isInSession ==>
              !p.isInBreak && p.currentLeg == c.legsInSession &&
              Progress(p) == 2 * (c.legsInSession - 1) && r.speech == "Good Job!"
  {
  }

  /** The other direction: a phase whose time is up does end on the first tick that finds both
      buttons held. A finished work leg pays foodForLeg and goes to a break, or after the last leg
      also pays foodForSession, says "Good Job!" and ends the session; a finished break starts
      the next leg. Until both buttons are held, the pet only announces the end of the phase. */
  lemma SessionPhaseEnds(c: Config, p: Pet, now: int, b: Buttons)
    requires ValidConfig(c) && Inv(c, p) && !p.runAway && p.isInSession
    ensures var r := SessionStep(c, p, now, b);
            !p.isInBreak && now - p.legBreakStart >= c.lengthOfLeg * 60 ==>
              if !BothHeld(b) then r == p.(speech := "Break Time!")
              else if p.currentLeg < c.legsInSession then
                r.isInSession && r.isInBreak && r.currentLeg == p.currentLeg &&
                r.food == p.food + c.foodForLeg && r.legBreakStart == now
              else
                !r.isInSession && !r.isInBreak && r.speech == "Good Job!" &&
                r.food == p.food + c.foodForLeg + c.foodForSession && r.legBreakStart == now
    ensures var r := SessionStep(c, p, now, b);
            p.isInBreak && now - p.legBreakStart >= c.lengthOfBreak * 60 ==>
              r.speech == "Round " + PetText.IntToString(p.currentLeg + 1) + "!" &&
              if !BothHeld(b) then r == p.(speech := r.speech)
              else r.isInSession && !r.isInBreak && r.currentLeg == p.currentLeg + 1 &&
                   r.food == p.food && r.legBreakStart == now
  {
  }

  /** What one session tick pays: each completed leg credits foodForLeg, and ending the session
      brings the total paid for it to SessionRewards. */
  lemma SessionStepLedger(c: Config, p: Pet, now: int, b: Buttons)
    requires ValidConfig(c) && Inv(c, p) && !p.runAway && p.isInSession
    ensures var r := SessionStep(c, p, now, b);
            r.isInSession ==> r.food == p.food + c.foodForLeg * (LegsDone(r) - LegsDone(p))
    ensures var r := SessionStep(c, p, now, b);
            !r.isInSession ==> r.food == p.food + SessionRewards(c) - c.foodForLeg * LegsDone(p)
  {
  }

  /** The session is still running before every one of the ticks `ss`. */
  predicate StaysInSession(c: Config, p: Pet, ss: seq<Sample>)
    decreases |ss|
  {
    ss == [] || (p.isInSession && StaysInSession(c, SessionStep(c, p, ss[0].now, ss[0].buttons), ss[1..]))
  }

  /** The ledger of a stretch p..r is the ledger of p..q followed by that of q..r, for a q still
      inside the session: pay for legs a..b plus pay for legs b..c is pay for legs a..c. */
  lemma LedgerCompose(c: Config, p: Pet, q: Pet, r: Pet)
    requires q.isInSession && q.food == p.food + c.foodForLeg * (LegsDone(q) - LegsDone(p))
    requires r.isInSession ==> r.food == q.food + c.foodForLeg * (LegsDone(r) - LegsDone(q))
    requires !r.isInSession ==> r.food == q.food + SessionRewards(c) - c.foodForLeg * LegsDone(q)
    ensures r.isInSession ==> r.food == p.food + c.foodForLeg * (LegsDone(r) - LegsDone(p))
    ensures !r.isInSession ==> r.food == p.food + SessionRewards(c) - c.foodForLeg * LegsDone(p)
  {
    var k, a, b := c.foodForLeg, LegsDone(p), LegsDone(q);
    assert k * (b - a) == k * b - k * a;
    if r.isInSession {
      assert k * (LegsDone(r) - b) + k * (b - a) == k * (LegsDone(r) - a);
    }
  }

  /** The ledger over a whole stretch of a session: the food it pays is foodForLeg per leg
      completed, and if the session ends, SessionRewards less what earlier legs already paid. */
  lemma {:induction false} SessionRunLedger(c: Config, p: Pet, ss: seq<Sample>)
    requires ValidConfig(c) && Inv(c, p) && !p.runAway && p.isInSession
    requires StaysInSession(c, p, ss)
    ensures var r := SessionRun(c, p, ss);
            r.isInSession ==> r.food == p.food + c.foodForLeg * (LegsDone(r) - LegsDone(p))
    ensures var r := SessionRun(c, p, ss);
            !r.isInSession ==> r.food == p.food + SessionRewards(c) - c.foodForLeg * LegsDone(p)
    decreases |ss|
  {
    if ss != [] {
      var q := SessionStep(c, p, ss[0].now, ss[0].buttons);
      SessionStepLedger(c, p, ss[0].now, ss[0].buttons);
      assert SessionRun(c, p, ss) == SessionRun(c, q, ss[1..]);
      if q.isInSession {
        SessionRunLedger(c, q, ss[1..]);
        var r := SessionRun(c, q, ss[1..]);
        LedgerCompose(c, p, q, r);
      } else {
        assert ss[1..] == [];
      }
    }
  }

  /** A session followed from its start to its end pays exactly SessionRewards. */
  lemma CompletedSessionPaysRewards(c: Config, p: Pet, ss: seq<Sample>)
    requires ValidConfig(c) && Inv(c, p) && !p.runAway
    requires p.isInSession && p.currentLeg == 1 && !p.isInBreak
    requires StaysInSession(c, p, ss) && !SessionRun(c, p, ss).isInSession
    ensures SessionRun(c, p, ss).food == p.food + SessionRewards(c)
  {
    SessionRunLedger(c, p, ss);
  }

  /** Work legs ended by the ticks of `ss`, and breaks ended by them. */
  function WorkLegsEnded(c: Config, p: Pet, ss: seq<Sample>): nat
    decreases |ss|
  {
    if ss == [] then 0
    else
      var q := SessionStep(c, p, ss[0].now, ss[0].buttons);
      (if p.isInSession && !p.isInBreak && (q.isInBreak || !q.isInSession) then 1 else 0) +
      WorkLegsEnded(c, q, ss[1..])
  }

  function BreaksEnded(c: Config, p: Pet, ss: seq<Sample>): nat
    decreases |ss|
  {
    if ss == [] then 0
    else
      var q := SessionStep(c, p, ss[0].now, ss[0].buttons);
      (if p.isInBreak && !q.isInBreak then 1 else 0) + BreaksEnded(c, q, ss[1..])
  }

  /** Over any stretch of a session, the work legs ended are the legs newly paid for and the
      breaks ended are the leg counter's rise; if the session ends, the work legs ended make up
      legsInSession and the breaks ended legsInSession - 1, counting those before the stretch. */
  lemma {:induction false} SessionRunPhases(c: Config, p: Pet, ss: seq<Sample>)
    requires ValidConfig(c) && Inv(c, p) && !p.runAway && p.isInSession
    requires StaysInSession(c, p, ss)
    ensures var r := SessionRun(c, p, ss);
            r.isInSession ==> WorkLegsEnded(c, p, ss) == LegsDone(r) - LegsDone(p) &&
                              BreaksEnded(c, p, ss) == r.currentLeg - p.currentLeg
    ensures var r := SessionRun(c, p, ss);
            !r.isInSession ==> WorkLegsEnded(c, p, ss) == c.legsInSession - LegsDone(p) &&
                               BreaksEnded(c, p, ss) == c.legsInSession - p.currentLeg
    decreases |ss|
  {
    if ss != [] {
      var q := SessionStep(c, p, ss[0].now, ss[0].buttons);
      SessionStepProgress(c, p, ss[0].now, ss[0].buttons);
      if q.isInSession {
        SessionRunPhases(c, q, ss[1..]);
      } else {
        assert ss[1..] == [];
      }
    }
  }

  /** A session followed from its start to its end runs exactly legsInSession work legs and
      legsInSession - 1 breaks. */
  lemma CompletedSessionPhases(c: Config, p: Pet, ss: seq<Sample>)
    requires ValidConfig(c) && Inv(c, p) && !p.runAway
    requires p.isInSession && p.currentLeg == 1 && !p.isInBreak
    requires StaysInSession(c, p, ss) && !SessionRun(c, p, ss).isInSession
    ensures WorkLegsEnded(c, p, ss) == c.legsInSession
    ensures BreaksEnded(c, p, ss) == c.legsInSession - 1
  {
    SessionRunPhases(c, p, ss);
  }
}

=== FILE: speech.dfy ===
/** The self-clearing speech bubble. A message is wiped once the clearing timer
    `lastSpeechClear` is three seconds old; the timer is armed lazily, on the first tick that
    finds a message with the timer off, and some messages re-arm it when they are set. */
module Speech {
  import opened PetState
  import Hunger

  const ClearAfter := 3

  /** The timer after the lazy arming step of the clearing code. */
  function Armed(p: Pet, now: int): int {
    if p.speech != "" && p.lastSpeechClear == Unset then now else p.lastSpeechClear
  }

  /** Speech clearing as the device evidently means it: once the armed timer is three seconds old
      the message is wiped AND the timer is switched off, so the next message gets its own full
      three seconds. Only the speech and the timer change. */
  function ClearSpeech(p: Pet, now: int): (r: Pet)
    ensures r == p.(speech := r.speech, lastSpeechClear := r.lastSpeechClear)
    ensures var t := Armed(p, now);
            if t != Unset && now - t >= ClearAfter
            then r.speech == "" && r.lastSpeechClear == Unset
            else r.speech == p.speech && r.lastSpeechClear == t
  {
    var t := Armed(p, now);
    if t != Unset && now - t >= ClearAfter then p.(speech := "", lastSpeechClear := Unset)
    else p.(lastSpeechClear := t)
  }

  /** Speech clearing as written: the statement meant to switch the timer off is a comparison
      whose value is discarded, so the timer keeps its value and every later message is wiped on
      the first tick that finds it, however recently it was set. */
  function ClearSpeechAsWritten(p: Pet, now: int): (r: Pet)
    ensures r == p.(speech := r.speech, lastSpeechClear := r.lastSpeechClear)
    ensures r.lastSpeechClear == Armed(p, now)
    ensures var t := Armed(p, now);
            if t != Unset && now - t >= ClearAfter then r.speech == "" else r.speech == p.speech
  {
    var t := Armed(p, now);
    if t != Unset && now - t >= ClearAfter then p.(speech := "", lastSpeechClear := t)
    else p.(lastSpeechClear := t)
  }

  /** As written, an armed timer is never switched off again. */
  lemma AsWrittenNeverDisarms(p: Pet, now: int)
    requires p.lastSpeechClear != Unset
    ensures ClearSpeechAsWritten(p, now).lastSpeechClear == p.lastSpeechClear
  {
  }

  /** The input that shows it: at power-on "Hi!" arms the timer at 0 and is wiped at 3; a feeding
      at 10 says "*NOM*", and the clearing code wipes it on the very next tick (still at 10)
      because the stale timer is ten seconds old. The corrected clearing keeps it. */
  lemma AsWrittenWipesFreshMessage()
    ensures var p0 := ClearSpeechAsWritten(Initial(0), 0);
            var p1 := ClearSpeechAsWritten(p0, 3);
            var p2 := Hunger.Feed(DefaultConfig(), p1);
            p0.speech == "Hi!" && p1.speech == "" && p2.speech == "*NOM*" &&
            ClearSpeechAsWritten(p2, 10).speech == ""
    ensures var p0 := ClearSpeech(Initial(0), 0);
            var p1 := ClearSpeech(p0, 3);
            var p2 := Hunger.Feed(DefaultConfig(), p1);
            p0.speech == "Hi!" && p1.speech == "" && p2.speech == "*NOM*" &&
            ClearSpeech(p2, 10).speech == "*NOM*"
  {
  }

  /** With the corrected clearing, a message set while the timer is off is armed on the next
      tick at `t` and stays up at every later tick `t'` less than three seconds on, and is wiped,
      switching the timer off again, at the first tick three or more seconds on. */
  lemma FreshMessageLastsThreeSeconds(p: Pet, t: int, t': int)
    requires p.speech != "" && p.lastSpeechClear == Unset && t != Unset
    ensures var q := ClearSpeech(p, t);
            q.speech == p.speech && q.lastSpeechClear == t
    ensures var r := ClearSpeech(ClearSpeech(p, t), t');
            (t' - t < ClearAfter ==> r.speech == p.speech) &&
            (t' - t >= ClearAfter ==> r.speech == "" && r.lastSpeechClear == Unset)
  {
  }

  /** Even the corrected clearing gives no fresh three seconds to a message set while an earlier
      one is still pending and that does not re-arm the timer: "Hi!" arms the timer at 0, a
      feeding at 1 says "*NOM*", and the clearing at 3 wipes it two seconds after it appeared. */
  lemma PendingTimerIsInherited()
    ensures var p0 := ClearSpeech(Initial(0), 0);
            var p1 := Hunger.Feed(DefaultConfig(), p0);
            p0.lastSpeechClear == 0 && p1.speech == "*NOM*" && p1.lastSpeechClear == 0 &&
            ClearSpeech(p1, 3).speech == ""
  {
  }
}

=== FILE: state.dfy ===
/** The pet's state: the configuration fixed at start-up, the mutable record that the main
    loop updates every tick (the `pomo_state` entries that change plus the loop's globals),
    and one tick's inputs. */
module PetState {

  /** The economy and session settings; none of them changes while the device runs. */
  datatype Config = Config(
    lengthOfLeg: int,        // minutes of work per leg
    lengthOfBreak: int,      // minutes per break
    legsInSession: int,
    foodForLeg: int,
    foodForSession: int,
    difficulty: int,
    hungerMultiplier: int,   // hunger regained by feeding a pet whose hunger is at or below 0
    eatingRate: seq<int>)    // hunger steps per day, per reward, indexed by weekday (0 = Sunday)

  /** The settings the device ships with. */
  function DefaultConfig(): (c: Config)
    ensures ValidConfig(c)
    ensures SessionRewards(c) == 6 && HungerThreshold(c) == 6
  {
    Config(lengthOfLeg := 1, lengthOfBreak := 1, legsInSession := 2, foodForLeg := 1,
           foodForSession := 4, difficulty := 1, hungerMultiplier := 3,
           eatingRate := [0, 1, 2, 2, 2, 0, 0])
  }

  /** Settings under which the session and hunger rules stay well-formed: one rate per weekday,
      at least one leg per session, and rewards that never take food away. */
  predicate ValidConfig(c: Config) {
    |c.eatingRate| == 7 && c.legsInSession >= 1 && c.foodForLeg >= 0 && c.foodForSession >= 0
  }

  /** Food paid for one completed session. */
  function SessionRewards(c: Config): int {
    c.foodForLeg * c.legsInSession + c.foodForSession
  }

  /** Hunger at or below which a hunger step either eats from the food store or makes the pet run away. */
  function HungerThreshold(c: Config): int {
    SessionRewards(c) * c.difficulty
  }

  /** The sentinel the source uses for "no timestamp" (an unarmed timer). */
  const Unset := -1

  /** Everything the main loop changes. Timers are integer seconds, `Unset` when disarmed. */
  datatype Pet = Pet(
    hunger: int,
    food: int,
    speech: string,
    lastHunger: int,        // time of the last hunger step
    runAway: bool,          // the pet has left for good
    bothDownTime: int,      // when both buttons were pressed together while idle
    isInSession: bool,
    isInBreak: bool,
    currentLeg: int,
    legBreakStart: int,     // when the current work leg or break began
    lastSpeechClear: int)   // when the speech-clearing timer was armed

  /** The record as the device builds it at power-on, `now` being the clock at that moment. */
  function Initial(now: int): Pet {
    Pet(hunger := 0, food := 10, speech := "Hi!", lastHunger := now, runAway := false,
        bothDownTime := Unset, isInSession := false, isInBreak := false, currentLeg := -1,
        legBreakStart := Unset, lastSpeechClear := Unset)
  }

  /** What one poll of the buttons yields. The switches are pulled up, so a "fell" edge is
      the moment a button is pressed and "held" is a button that currently reads low. */
  datatype Buttons = Buttons(leftFell: bool, rightFell: bool, leftHeld: bool, rightHeld: bool)

  predicate BothHeld(b: Buttons) {
    b.leftHeld && b.rightHeld
  }

  /** One tick's inputs: the clock (epoch seconds and weekday) and the buttons. */
  datatype Sample = Sample(now: int, weekday: int, buttons: Buttons)

  /** The invariant the main loop keeps:
      - the food store never goes negative;
      - inside a session the leg counter lies in 1..legsInSession and the hold-to-start timer is off;
      - a break only happens inside a session and before its last leg;
      - a pet that ran away left with no food and its hunger at or below the threshold. */
  predicate Inv(c: Config, p: Pet) {
    && p.food >= 0
    && (p.isInSession ==> 1 <= p.currentLeg <= c.legsInSession && p.bothDownTime == Unset)
    && (p.isInBreak ==> p.isInSession && p.currentLeg < c.legsInSession)
    && (p.runAway ==> p.food == 0 && p.hunger <= HungerThreshold(c))
  }

  /** The start-up record satisfies the invariant under every well-formed configuration. */
  lemma InitialInv(c: Config, now: int)
    requires ValidConfig(c)
    ensures Inv(c, Initial(now)) && !Initial(now).runAway && !Initial(now).isInSession
  {
  }
}

=== FILE: text.dfy ===
/** Decimal rendering of integers and the two status readouts built from it:
    the food counter (`get_food_text`) and the clock (`get_clock_time`). */
module PetText {

  predicate IsDigit(ch: char) {
    '0' <= ch <= '9'
  }

  predicate AllDigits(s: string) {
    forall i :: 0 <= i < |s| ==> IsDigit(s[i])
  }

  function DigitChar(d: nat): (ch: char)
    requires d < 10
    ensures IsDigit(ch) && ch as int - '0' as int == d
  {
    ('0' as int + d) as char
  }

  function DigitValue(ch: char): nat
    requires IsDigit(ch)
  {
    ch as int - '0' as int
  }

  /** The decimal digits of `n`, most significant first, with no leading zero. */
  function NatToString(n: nat): (s: string)
    ensures |s| >= 1 && AllDigits(s)
    ensures n < 10 <==> |s| == 1
    ensures n > 0 ==> s[0] != '0'
    decreases n
  {
    if n < 10 then [DigitChar(n)] else NatToString(n / 10) + [DigitChar(n % 10)]
  }

  /** Python's `str(i)` / `"{}".format(i)` for an int: a minus sign before the digits of |i|. */
  function IntToString(i: int): (s: string)
    ensures |s| >= 1
    ensures s[0] == '-' <==> i < 0
    ensures AllDigits(s[1..])
  {
    if i < 0 then "-" + NatToString(-i) else NatToString(i)
  }

  /** Reads a string of decimal digits back; the inverse of NatToString. */
  function ParseNat(s: string): nat
    requires AllDigits(s)
  {
    if s == [] then 0 else ParseNat(s[..|s| - 1]) * 10 + DigitValue(s[|s| - 1])
  }

  function ParseInt(s: string): int
    requires |s| >= 1 && AllDigits(s[1..])
    requires s[0] == '-' || IsDigit(s[0])
  {
    if s[0] == '-' then -(ParseNat(s[1..]) as int) else ParseNat(s)
  }

  lemma {:induction false} ParseNatToString(n: nat)
    ensures ParseNat(NatToString(n)) == n
  {
    if n >= 10 {
      var s := NatToString(n);
      assert s[..|s| - 1] == NatToString(n / 10);
      ParseNatToString(n / 10);
    }
  }

  /** Every integer the device prints can be read back unchanged. */
  lemma IntToStringRoundTrip(i: int)
    ensures ParseInt(IntToString(i)) == i
  {
    var s := IntToString(i);
    if i < 0 {
      assert s[1..] == NatToString(-i);
      ParseNatToString(-i);
    } else {
      assert s == NatToString(i) && IsDigit(s[0]);
      ParseNatToString(i);
    }
  }

  const HungrySuffix := " FUD (HRNGY!)"
  const FedSuffix := " FUD"

  /** The food readout: the food count, flagged when the pet's hunger is negative. */
  function FoodText(food: int, hunger: int): (s: string)
    ensures var k := |IntToString(food)|;
            k < |s| && s[..k] == IntToString(food) &&
            (s[k..] == HungrySuffix <==> hunger < 0) && (s[k..] == FedSuffix <==> hunger >= 0)
  {
    IntToString(food) + (if hunger < 0 then HungrySuffix else FedSuffix)
  }

  /** The food count reads back exactly from the start of the food readout. */
  lemma FoodTextReadsBack(food: int, hunger: int)
    ensures var s := FoodText(food, hunger);
            ParseInt(s[..|IntToString(food)|]) == food
  {
    IntToStringRoundTrip(food);
  }

  const Days: seq<string> := ["SUN", "MON", "TUE", "WED", "THU", "FRI", "SAT"]

  /** Python's `"{:02d}".format(n)` for a non-negative `n`. */
  function ZeroPad2(n: nat): (s: string)
    ensures AllDigits(s)
    ensures n < 100 ==> |s| == 2
  {
    if n < 10 then "0" + NatToString(n) else NatToString(n)
  }

  lemma ZeroPad2ReadsBack(n: nat)
    requires n < 100
    ensures |ZeroPad2(n)| == 2 && ParseNat(ZeroPad2(n)) == n
  {
    ParseNatToString(n);
    if n < 10 {
      var s := ZeroPad2(n);
      assert s[..1] == "0";
      assert ParseNat(s) == ParseNat(s[..1]) * 10 + DigitValue(s[1]);
    } else {
      assert NatToString(n) == NatToString(n / 10) + [DigitChar(n % 10)];
    }
  }

  /** The clock readout `DAY HH:MM`. */
  function ClockText(weekday: int, hour: int, minute: int): (s: string)
    requires 0 <= weekday < |Days|
    requires 0 <= hour < 24 && 0 <= minute < 60
    ensures |s| == 9 && s[..3] == Days[weekday] && s[3] == ' ' && s[6] == ':'
    ensures AllDigits(s[4..6]) && AllDigits(s[7..])
  {
    Days[weekday] + " " + ZeroPad2(hour) + ":" + ZeroPad2(minute)
  }

  /** The hour and minute read back exactly from the clock readout. */
  lemma ClockTextLayout(weekday: int, hour: int, minute: int)
    requires 0 <= weekday < |Days|
    requires 0 <= hour < 24 && 0 <= minute < 60
    ensures var s := ClockText(weekday, hour, minute);
            ParseNat(s[4..6]) == hour && ParseNat(s[7..]) == minute
  {
    ZeroPad2ReadsBack(hour);
    ZeroPad2ReadsBack(minute);
    var s := ClockText(weekday, hour, minute);
    assert s[4..6] == ZeroPad2(hour);
    assert s[7..] == ZeroPad2(minute);
  }
}
